=== FILE: README.md ===
# Kokoro camera: aperture, pulse estimate and EXIF dates

This project models the core of `script.js`, a single-page camera app. The app
does three things:

- **Aperture.** A pinch gesture simulates an aperture. The pinch scale
  (0.25–4.0) becomes an F-number (22–2), and the F-number becomes a CSS
  `blur(..) brightness(..)` filter. The same filter is applied to the live
  preview and to the captured photo.
- **Pulse.** While a measurement runs, every animation frame samples the mean
  Rec. 601 luma of a 100×100 square of the video into a history of at most
  512 timestamped samples. Eight seconds after the start button is pressed,
  `calcBPM` picks the strongest frequency bin inside 60–100 BPM. The result is
  kept only inside that band and shown as a number or `---`.
- **Capture.** The front camera (`user`) is mirrored in the preview and in the
  capture. The two can disagree after a failed camera switch (see
  "## Findings"). When a location was obtained and piexif is loaded (line 281),
  the photo carries `YYYY:MM:DD HH:MM:SS` date strings from local time and a
  `YYYY:MM:DD` GPS date stamp from UTC. A photo taken without a location
  carries no EXIF data.

The modules follow the script's structure:

| file | module | what it holds |
|---|---|---|
| `jsmath.dfy` | `JsMath` | `Math.round` and `Math.max` on reals |
| `aperture.dfy` | `Aperture` | `updateCircleAndFValue` (the F-number) and `computeCssFilter` |
| `sampler.dfy` | `Sampler` | the luma of a pixel block and the bounded sample history |
| `estimator.dfy` | `Estimator` | `calcBPM`, the range filter and the label text |
| `session.dfy` | `Session` | the script's state and its handlers: start, frame, timeout, pinch, camera switch, shot settings |
| `exifdate.dfy` | `ExifDate` | the EXIF `DateTime` string and `GPSDateStamp`, with parsers that prove they read back |

Some behaviour is passed in as parameters:

- **Clock.** The current time is the parameter `now`, in ms.
- **Pixels.** A frame's RGBA pixels are a parameter.
- **DFT.** The Fourier transform is the function parameter
  `dft: seq<real> -> seq<real>`. It maps the detrended series to the power of
  each bin. The model proves facts about the selection logic for every such
  transform. Power is not assumed to be non-negative, even though
  `Math.hypot` always is.

Numbers are mathematical reals. JavaScript's `Math.round(x)` is modelled as
`floor(x + 0.5)`.

Four behaviours of the script worth noting:

- **Sample window.** The eight-second window is measured back from the
  current time, as `Date.now()` reads it when the filter runs.
- **First bin.** The bin scan starts at bin 0, whose BPM is 0 and so never in
  band.
- **No qualifying bin.** When no bin qualifies, `calcBPM` returns the number 0.
- **Brightness.** Brightness is linear in the F-number and has no clamp.
  Blur has a floor at 0.

## Model

| member | source | states |
|---|---|---|
| JsMath.Round | script.js:183 | `Math.round` gives the integer within half a unit of its argument, with halves rounding up |
| JsMath.Max | script.js:104 | `Math.max` of two numbers is one of them and at least both |
| Aperture.ClampF | script.js:94 | the clamp lands in [2, 22], is the identity inside it, and sends values below to 2 and above to 22 |
| Aperture.ScaleToFNumber | script.js:93-94 | every pinch scale, even one outside the pinch range, shows an F-number in [2, 22] |
| Aperture.ScaleToFNumberEndpoints | script.js:93-94 | scale 0.25, the start of the pinch range, gives F22, and scale 4 gives F2 |
| Aperture.ScaleToFNumberAntitone | script.js:93-94 | a larger pinch scale never shows a larger F-number |
| Aperture.ScaleToFNumberNearest | script.js:93-94 | inside the pinch range the F-number is the integer nearest the linear interpolation, so the clamp never fires |
| Aperture.BlurPx | script.js:104 | the blur is never negative, is 0 from F22 on, and is at most 15 px from F2 on |
| Aperture.Brightness | script.js:105 | the brightness is at least 0.8 up to F22 and at most 1.5 from F2 on |
| Aperture.ComputeFilter | script.js:102-107 | on [2, 22] the blur lies in [0, 15] px and the brightness in [0.8, 1.5] |
| Aperture.FilterEndpoints | script.js:104-105 | F2 gives 15 px blur and brightness 1.5; F22 gives no blur and brightness 0.8 |
| Aperture.FilterAntitone | script.js:104-105 | a larger F-number never gives more blur or more brightness |
| Aperture.BrightnessDeterminesFNumber | script.js:105 | brightness is invertible: it determines the F-number it came from |
| Aperture.BlurTracksBrightness | script.js:104-105 | up to F22 the blur is the brightness gain rescaled from 0.7 to 15 px |
| Sampler.Luma | script.js:203 | one pixel's luma lies in [0, 255], and a grey pixel's luma is its grey level |
| Sampler.LumaSum | script.js:201-204 | the block's total luma lies between 0 and 255 per pixel |
| Sampler.AverageLuma | script.js:205 | the mean luma of a whole-pixel block lies in [0, 255] |
| Sampler.SumLuma | script.js:201-204 | the loop that steps four entries at a time computes the total luma of the block |
| Sampler.MeanLuma | script.js:201-205 | the loop and the division give the mean luma, in [0, 255] |
| Sampler.GreyLumaSum | script.js:201-204 | a uniformly grey block totals its grey level once per pixel, alpha ignored |
| Sampler.GreyBlockAverage | script.js:201-205 | the luma weights sum to one: a grey block averages exactly to its grey level |
| Sampler.Append | script.js:207-208 | after a push the new sample is last; the length grows by one below 512 and stays put at 512 |
| Sampler.AppendEvictsOldest | script.js:207-208 | below 512 nothing is dropped; at 512 exactly the oldest sample is dropped, and the rest keep their order |
| Sampler.Record | script.js:207-208 | a history built by pushes never exceeds 512 samples |
| Sampler.RecordKeepsNewest | script.js:207-208 | after n pushes onto an emptied history it holds exactly the newest min(n, 512) samples, oldest first |
| Estimator.Recent | script.js:138 | every kept sample was taken less than 8000 ms before `now`, and every such sample is kept |
| Estimator.RecentSingleton | script.js:138 | one sample is kept exactly when it was taken less than 8000 ms before `now` |
| Estimator.RecentAppend | script.js:138 | the filter works sample by sample: filtering a concatenation concatenates the filtered parts, so the kept samples keep their history order and multiplicity |
| Estimator.DetrendSumsToZero | script.js:149-150 | the series minus its mean sums to zero |
| Estimator.FlatDetrendsToZeros | script.js:149-150 | a constant series detrends to all zeros |
| Estimator.NyquistBins | script.js:173 | the number of bins visited is the least m with 2m at least the sample count |
| Estimator.NyquistBinsExact | script.js:173 | bin i is visited exactly when i < n / 2 in exact division |
| Estimator.Scan | script.js:170-182 | the peak power is never negative, and the chosen BPM is 0 or lies in [60, 100] |
| Estimator.ScanStepTakes | script.js:176-180 | an in-band bin stronger than the peak so far becomes the dominant bin |
| Estimator.ScanStepSkips | script.js:173-182 | a bin that is out of band or not stronger leaves the arg-max unchanged |
| Estimator.ScanFindsDominant | script.js:170-183 | the scan returns 0 exactly when no in-band bin has positive power; otherwise it returns the first strongest in-band bin |
| Estimator.DominantIsUnique | script.js:177 | the strict comparison makes the winning bin unique, so ties go to the lowest bin |
| Estimator.ScanReadsOnlyEligible | script.js:173-182 | bins outside the band, or at or above half the sample count, cannot change the outcome |
| Estimator.RoundKeepsBand | script.js:183 | rounding keeps 0 at 0 and maps the band onto the integers 60..100 |
| Estimator.CalcBpm | script.js:134-184 | the estimate is 0 or an integer in [60, 100], and it is 0 whenever an early exit fires |
| Estimator.CalcBpmNonZeroIff | script.js:134-184 | the estimate is non-zero exactly when all three early exits pass and some visited in-band bin has positive power |
| Estimator.CalcBpmPicksDominant | script.js:168-183 | when bin k dominates a measurable window, the estimate is bin k's BPM rounded |
| Estimator.FlatSeriesGivesZero | script.js:149-163 | in exact arithmetic a constant luma series gives no estimate, given a transform of zeros with no positive power |
| Estimator.AcceptBpm | script.js:228 | the filter keeps exactly 0 and the values in [60, 100], and maps everything else to 0 |
| Estimator.AcceptBpmKeepsEstimate | script.js:227-228 | the range filter never changes what `calcBPM` returns |
| Estimator.BpmDisplay | script.js:229 | the label shows `---` exactly when the BPM is not positive, and otherwise the BPM itself |
| Session.Toggle | script.js:235 | the switch-camera button always changes the facing mode |
| Session.ToggleInvolutive | script.js:235 | pressing switch twice returns to the first camera |
| Session.MirroringAgrees | script.js:265-268 | the capture flips exactly when the preview transform (line 81) mirrors: for the front camera |
| Session.InitValid | script.js:13-19 | the initial state satisfies the invariant: an empty history, BPM 0, and F22 at scale 0.25 |
| Session.PressStart | script.js:217-222 | start is a no-op while measuring; otherwise it starts measuring on an emptied history, shows the measuring label, keeps the invariant and changes nothing else |
| Session.PressStartIdempotent | script.js:218 | pressing start twice is the same as pressing it once |
| Session.FrameTick | script.js:187-209 | a ready frame during a measurement appends one sample stamped `now`, with luma in [0, 255]; otherwise nothing changes |
| Session.RunFramesRecords | script.js:187-213 | after start, the frames' samples are pushed onto the history one by one, in order |
| Session.MeasurementKeepsNewest | script.js:207-221 | after start, the history holds the newest min(n, 512) of the n frame samples, oldest first |
| Session.MeasurementEnds | script.js:225-230 | the timeout stops measuring and stores `calcBPM`'s value; the label is `---` exactly when that value is 0; nothing else changes |
| Session.UpdateAperture | script.js:87-98 | the new pinch scale is stored and the F-number becomes the one it maps to, in [2, 22]; nothing else changes |
| Session.CameraStarted | script.js:78-84 | the `play` listener mirrors the preview exactly for the front camera, and changes nothing else |
| Session.SwitchCamera | script.js:234-237 | switching flips whether shots are mirrored even if the restart fails; the preview follows only after a successful restart, so afterwards it is in sync exactly when the restart succeeded or it was out of sync before; nothing else changes |
| Session.FailedSwitchDiverges | script.js:234-237 | a failed restart after an in-sync state leaves a capture flipped for the new camera and a preview mirrored for the old one |
| Session.SwitchCameraIntended | script.js:63-66 | the switch with the mode written only after a successful start: on success it flips the mirroring and the preview follows; on failure nothing changes; it never touches anything but the mode and the preview |
| Session.IntendedSwitchKeepsSync | script.js:63-66 | with the mode written only after a successful start, the preview stays in sync whatever the restart does |
| Session.HandlersKeepPreviewInSync | script.js:187-230 | start, frame, timeout and pinch never touch the facing mode or the preview transform, so they keep the preview in sync |
| Session.InitInSync | script.js:19 | the script starts on the rear camera with an unmirrored preview |
| Session.Shot | script.js:264-274 | the shot uses the stored BPM and the filter of the current F-number; in a valid state its blur is in [0, 15] px, its brightness in [0.8, 1.5], and its BPM is 0 or in [60, 100] |
| Session.ShotCarriesEstimate | script.js:228-274 | the BPM a shot blurs with is what the last timeout stored from `calcBPM`; switching the camera, pinching and pressing start keep it |
| Session.ShotMatchesPreview | script.js:264-271 | the shot gets the preview's filter, and it is mirrored the way the preview is exactly when the preview is in sync with the facing mode |
| ExifDate.NatToString | script.js:284 | `toString` of a date field (every one is below 10^21, so no exponent form) gives at least one digit, with no leading zero |
| ExifDate.ParseNatToString | script.js:284 | the decimal string reads back as the number |
| ExifDate.PadStart2 | script.js:284 | `padStart(2, '0')` gives two characters or more, ending in the input with only zeros before it |
| ExifDate.TwoDigitsRoundTrip | script.js:284 | every field below 100 is written as exactly two digits that read back as the field |
| ExifDate.FourDigitYear | script.js:284 | a year in 1000..9999 is written with four characters |
| ExifDate.DateStamp | script.js:299 | with a four-digit year the stamp has 10 characters, with colons at positions 4 and 7 |
| ExifDate.ExifDateTimeLayout | script.js:284 | with a four-digit year the date string has 19 characters, with its separators in the EXIF positions |
| ExifDate.GpsDateStamp | script.js:299 | with a four-digit UTC year the GPS date stamp has 10 characters, with colons at positions 4 and 7 |
| ExifDate.DateStampRoundTrip | script.js:299 | the date stamp reads back as its year, `getMonth()` value and day |
| ExifDate.ExifDateTimeRoundTrip | script.js:284 | the EXIF date string reads back as the local clock fields it was built from |
| ExifDate.GpsDateStampRoundTrip | script.js:299 | the GPS date stamp reads back as the UTC year, month and day |

## Left out

- Camera start, stream handling, `getUserMedia`, `resizeCanvas`, `drawImage` and `getImageData`: browser I/O. A frame's pixel block is a parameter.
- `drawGraph`: canvas drawing with no effect on the state.
- The trigonometric DFT loops and `Math.hypot`: floating-point trigonometry. The transform is the parameter `dft`. Its one property used here, that zero input gives no positive power (`hypot(0, 0) = 0`), is the hypothesis `ZeroInZeroOut` of `Estimator.FlatSeriesGivesZero`.
- `toFixed(1)` and `toFixed(2)` in the filter string: the model keeps the two numbers the string is formatted from, unrounded.
- IEEE-754 doubles in general: all arithmetic is exact real arithmetic.
- `requestAnimationFrame` and `setTimeout(.., 8000)`: the scheduling is not modelled. A frame is one call of `Session.FrameTick`, and the timeout is one call of `Session.MeasurementEnds`.
- Geolocation, `getLocation`, `toDataURL`, the gallery and the piexif calls: I/O and library code. The model keeps only the shot's settings and the date strings. The date strings are embedded only when a location was obtained and piexif is loaded (line 281); that condition is not modelled, and the strings are modelled as built when it holds.
- `captureWithMotionBlur`: the script's own motion-blur compositor, which draws frames onto the canvas. It is outside this model; the model keeps only the settings it is called with (`Session.Shot`).
- `GPSTimeStamp` and the piexif embedding: EXIF metadata I/O. Only the date strings are modelled.
- The pinch handler and `lastPinch`: gesture input. `Session.UpdateAperture` takes the new scale as given.
- The radius and text of the centre circle (line 88-97): display only.
- The `UserComment` string `F:..,BPM:..` and the `Software` tag: constant or display text.
- The shutter's `disabled` guard against double taps: UI state outside the model.
- Sampler.AverageLuma: requires a non-empty block of whole pixels. `getImageData` over the 100×100 square always returns 40000 entries, so the division by zero the script would turn into `NaN` cannot happen there.
- ExifDate.NatToString: models `toString` as plain decimal digits for every natural number. JavaScript writes numbers from 10^21 up in exponent form (`1e+21`); every date field that reaches it is below 275761, so that form is not modelled.
- ExifDate.DateStamp: the layout is proved only for years 1000–9999. Other years give a year string of another length: shorter below 1000, signed when negative, and longer above 9999 (a JavaScript `Date` reaches year 275760). The string is still modelled for them, but no layout is proved.
- ExifDate.ExifDateTimeLayout: the layout is proved only for years 1000–9999, for the same reason.
- ExifDate.DateStampRoundTrip: proved only for four-digit years, for the same reason.
- ExifDate.ExifDateTimeRoundTrip: proved only for four-digit years, for the same reason.
- ExifDate.GpsDateStamp: the layout is proved only for years 1000–9999, for the same reason.
- ExifDate.GpsDateStampRoundTrip: proved only for four-digit years, for the same reason.
- Estimator.Recent: the script calls `Date.now()` once per sample inside the filter, so the clock can advance during the filter; the model reads the clock once, as `now`.
- Session.SwitchCamera: camera restarts are treated as completing one at a time. With overlapping presses, the write-back of the mode after `await getUserMedia` (line 66) lets whichever start resolves last set the final mode, and the stream of the other start is never stopped; that interleaving is not modelled.

## Findings

| source | as written | input that shows it | evidently intended | confidence | as-written member | corrected member |
|---|---|---|---|---|---|---|
| script.js:234-237 | the switch button flips `currentFacingMode` before `startCamera`; only a successful start fires `play`, which sets the preview's mirroring | rear camera with an unmirrored preview, then a switch whose `getUserMedia` fails: the shutter flips for `user` while the preview stays unmirrored | the mode changes only once the new camera has started, as the write-back at line 66 does, so that preview and capture mirror alike | medium, not executed | Session.FailedSwitchDiverges | Session.IntendedSwitchKeepsSync |

=== FILE: aperture.dfy ===
/** The simulated aperture: the pinch scale picks an F-number, and the F-number
    picks the blur radius and brightness of the CSS filter on preview and capture. */
module Aperture {
  import JsMath

  const MinF: int := 2
  const MaxF: int := 22
  const MinScale: real := 0.25
  const MaxScale: real := 4.0

  /** Blur at the widest aperture, in pixels. */
  const MaxBlurPx: real := 15.0
  /** Brightness multiplier at the narrowest aperture, and the extra one gained at the widest. */
  const BaseBrightness: real := 0.8
  const BrightnessGain: real := 0.7

  /** The unrounded F-number of a pinch scale: linear, 22 at scale 0.25 and 2 at scale 4. */
  function LinearF(scale: real): real {
    (MaxScale - scale) / (MaxScale - MinScale) * (MaxF - MinF) as real + MinF as real
  }

  /** `Math.max(2, Math.min(22, v))`. */
  function ClampF(v: int): (r: int)
    ensures MinF <= r <= MaxF
    ensures MinF <= v <= MaxF ==> r == v
    ensures v < MinF ==> r == MinF
    ensures v > MaxF ==> r == MaxF
  {
    var below := if v < MaxF then v else MaxF;
    if below > MinF then below else MinF
  }

  /** The F-number `updateCircleAndFValue` shows for a pinch scale: the linear
      value, rounded as `Math.round` does, then clamped to [2, 22]. */
  function ScaleToFNumber(scale: real): (f: int)
    ensures MinF <= f <= MaxF
  {
    ClampF(JsMath.Round(LinearF(scale)))
  }

  /** The ends of the pinch range give the ends of the F-number range. */
  lemma ScaleToFNumberEndpoints()
    ensures ScaleToFNumber(MinScale) == MaxF
    ensures ScaleToFNumber(MaxScale) == MinF
  {
    JsMath.RoundOfInteger(MaxF);
    JsMath.RoundOfInteger(MinF);
  }

  /** Spreading the fingers (a larger scale) never raises the F-number. */
  lemma ScaleToFNumberAntitone(s1: real, s2: real)
    requires s1 <= s2
    ensures ScaleToFNumber(s2) <= ScaleToFNumber(s1)
  {
    JsMath.RoundMonotone(LinearF(s2), LinearF(s1));
  }

  /** Inside the pinch range the clamp never fires: the F-number is the integer
      nearest to the linear interpolation. */
  lemma ScaleToFNumberNearest(scale: real)
    requires MinScale <= scale <= MaxScale
    ensures -0.5 < ScaleToFNumber(scale) as real - LinearF(scale) <= 0.5
  {
    JsMath.RoundMonotone(LinearF(MaxScale), LinearF(scale));
    JsMath.RoundMonotone(LinearF(scale), LinearF(MinScale));
    JsMath.RoundOfInteger(MaxF);
    JsMath.RoundOfInteger(MinF);
  }

  /** The numbers `computeCssFilter` formats into `blur(..px) brightness(..)`. */
  datatype FilterParams = FilterParams(blurPx: real, brightness: real)

  /** How far `f` is from the narrowest aperture, as a fraction of the F-number range. */
  function Openness(f: real): real {
    (MaxF as real - f) / (MaxF - MinF) as real
  }

  /** Blur radius for an F-number: linear, floored at 0 by `Math.max(0, ..)`. */
  function BlurPx(f: real): (b: real)
    ensures b >= 0.0
    ensures f >= MaxF as real ==> b == 0.0
    ensures f >= MinF as real ==> b <= MaxBlurPx
  {
    JsMath.Max(0.0, Openness(f) * MaxBlurPx)
  }

  /** Brightness multiplier for an F-number: linear and not clamped. */
  function Brightness(f: real): (b: real)
    ensures f <= MaxF as real ==> b >= BaseBrightness
    ensures f >= MinF as real ==> b <= BaseBrightness + BrightnessGain
  {
    BaseBrightness + Openness(f) * BrightnessGain
  }

  function ComputeFilter(f: real): (p: FilterParams)
    ensures MinF as real <= f <= MaxF as real ==>
              0.0 <= p.blurPx <= MaxBlurPx && BaseBrightness <= p.brightness <= BaseBrightness + BrightnessGain
  {
    FilterParams(BlurPx(f), Brightness(f))
  }

  /** F2 gives 15 px of blur at brightness 1.5; F22 gives no blur at brightness 0.8. */
  lemma FilterEndpoints()
    ensures ComputeFilter(MinF as real) == FilterParams(15.0, 1.5)
    ensures ComputeFilter(MaxF as real) == FilterParams(0.0, 0.8)
  {}

  /** A larger F-number never gives more blur nor more brightness. */
  lemma FilterAntitone(f1: real, f2: real)
    requires f1 <= f2
    ensures BlurPx(f2) <= BlurPx(f1)
    ensures Brightness(f2) <= Brightness(f1)
  {}

  /** The F-number a brightness multiplier came from. */
  function FNumberOfBrightness(b: real): real {
    MaxF as real - (b - BaseBrightness) / BrightnessGain * (MaxF - MinF) as real
  }

  /** Brightness is strictly decreasing, so it determines the F-number: distinct
      apertures never render alike. */
  lemma BrightnessDeterminesFNumber(f: real)
    ensures FNumberOfBrightness(Brightness(f)) == f
  {}

  /** Inside the F-number range blur is brightness rescaled: both come from the same openness. */
  lemma BlurTracksBrightness(f: real)
    requires f <= MaxF as real
    ensures BlurPx(f) == (Brightness(f) - BaseBrightness) / BrightnessGain * MaxBlurPx
  {}
}

=== FILE: estimator.dfy ===
/** `calcBPM`: from the sample history to a pulse rate, by picking the strongest
    frequency bin inside the 60-100 BPM band. The discrete Fourier transform
    itself is a parameter: `dft` maps the detrended series to the power of each
    bin, one bin per sample. */
module Estimator {
  import JsMath
  import Sampler

  type Sample = Sampler.Sample

  const MinSamples: nat := 30
  const WindowMs: int := 8000
  const MinDurationSec: real := 5.0
  const MinBpm: int := 60
  const MaxBpm: int := 100

  /** `history.filter(o => now - o.t < 8000)`: the samples of the 8 s before `now`, in order. */
  function Recent(history: seq<Sample>, now: int): (r: seq<Sample>)
    ensures |r| <= |history|
    ensures forall i :: 0 <= i < |r| ==> r[i] in history && now - r[i].t < WindowMs
    ensures forall s :: s in history && now - s.t < WindowMs ==> s in r
    decreases |history|
  {
    if |history| == 0 then []
    else
      var rest := Recent(history[1..], now);
      if now - history[0].t < WindowMs then [history[0]] + rest else rest
  }

  /** The filter of one sample keeps it exactly when it is inside the window. */
  lemma RecentSingleton(x: Sample, now: int)
    ensures now - x.t < WindowMs ==> Recent([x], now) == [x]
    ensures now - x.t >= WindowMs ==> Recent([x], now) == []
  {
    assert [x][1..] == [];
  }

  /** The filter works sample by sample: filtering a concatenation concatenates
      the filtered parts, so the kept samples stay in history order and each
      kept sample occurs as often as in the history. */
  lemma {:induction false} RecentAppend(h1: seq<Sample>, h2: seq<Sample>, now: int)
    ensures Recent(h1 + h2, now) == Recent(h1, now) + Recent(h2, now)
    decreases |h1|
  {
    if |h1| == 0 {
      assert h1 + h2 == h2;
    } else {
      assert (h1 + h2)[1..] == h1[1..] + h2;
      RecentAppend(h1[1..], h2, now);
    }
  }

  /** `relevantHistory.map(o => o.v)`. */
  function Values(samples: seq<Sample>): seq<real> {
    seq(|samples|, i requires 0 <= i < |samples| => samples[i].v)
  }

  function Sum(xs: seq<real>): real
    decreases |xs|
  {
    if |xs| == 0 then 0.0 else xs[0] + Sum(xs[1..])
  }

  function Mean(xs: seq<real>): real
    requires |xs| > 0
  {
    Sum(xs) / |xs| as real
  }

  /** Every value of `xs` lowered by `c`. */
  function Shift(xs: seq<real>, c: real): seq<real> {
    seq(|xs|, i requires 0 <= i < |xs| => xs[i] - c)
  }

  /** `vals.map(v => v - mean)`. */
  function Detrend(xs: seq<real>): seq<real>
    requires |xs| > 0
  {
    Shift(xs, Mean(xs))
  }

  lemma {:induction false} SumShift(xs: seq<real>, c: real)
    ensures Sum(Shift(xs, c)) == Sum(xs) - |xs| as real * c
    decreases |xs|
  {
    if |xs| > 0 {
      assert Shift(xs, c)[1..] == Shift(xs[1..], c);
      SumShift(xs[1..], c);
    }
  }

  /** The detrended series has mean zero. */
  lemma DetrendSumsToZero(xs: seq<real>)
    requires |xs| > 0
    ensures Sum(Detrend(xs)) == 0.0
  {
    SumShift(xs, Mean(xs));
  }

  /** Every entry of `xs` equals its first. */
  predicate IsFlat(xs: seq<real>) {
    forall i :: 0 <= i < |xs| ==> xs[i] == xs[0]
  }

  function Zeros(n: nat): seq<real> {
    seq(n, i => 0.0)
  }

  lemma {:induction false} SumOfFlat(xs: seq<real>)
    requires |xs| > 0 && IsFlat(xs)
    ensures Sum(xs) == |xs| as real * xs[0]
    decreases |xs|
  {
    if |xs| > 1 {
      assert IsFlat(xs[1..]);
      SumOfFlat(xs[1..]);
    }
  }

  /** A constant series detrends to all zeros. */
  lemma FlatDetrendsToZeros(xs: seq<real>)
    requires |xs| > 0 && IsFlat(xs)
    ensures Detrend(xs) == Zeros(|xs|)
  {
    SumOfFlat(xs);
    assert Mean(xs) == xs[0];
  }

  /** `(times[last] - times[0]) / 1000`: the span of the kept samples, in seconds. */
  function SpanSeconds(samples: seq<Sample>): real
    requires |samples| > 0
  {
    (samples[|samples| - 1].t - samples[0].t) as real / 1000.0
  }

  /** `i * freqResolution * 60` with `freqResolution = 1 / duration`. */
  function BinBpm(i: int, duration: real): real
    requires duration > 0.0
  {
    i as real * (1.0 / duration) * 60.0
  }

  predicate InBand(bpm: real) {
    MinBpm as real <= bpm <= MaxBpm as real
  }

  /** The number of bins `i` with `i < n / 2` (JavaScript divides exactly). */
  function NyquistBins(n: nat): (m: nat)
    ensures 2 * m >= n && 2 * (m - 1) < n
  {
    (n + 1) / 2
  }

  /** The scan visits exactly the bins below half the sample count. */
  lemma NyquistBinsExact(n: nat, i: nat)
    ensures i < NyquistBins(n) <==> (i as real) < (n as real) / 2.0
  {}

  /** State of the scan loop: the largest power met so far and the BPM of its
      bin, both 0 until an in-band bin with positive power is met. */
  datatype Peak = Peak(maxPower: real, dominantBpm: real)

  /** `power[i] > m`. A read past the end of a JavaScript array yields
      `undefined`, which is greater than no number. */
  predicate Beats(power: seq<real>, i: nat, m: real) {
    i < |power| && power[i] > m
  }

  /** The scan loop after visiting bins 0 .. m-1; the strict `>` keeps the first
      of equally strong bins. */
  function Scan(power: seq<real>, duration: real, m: nat): (p: Peak)
    requires duration > 0.0
    ensures p.maxPower >= 0.0
    ensures p.dominantBpm == 0.0 || InBand(p.dominantBpm)
    decreases m
  {
    if m == 0 then Peak(0.0, 0.0)
    else
      var p := Scan(power, duration, m - 1);
      var bpm := BinBpm(m - 1, duration);
      if InBand(bpm) && Beats(power, m - 1, p.maxPower) then Peak(power[m - 1], bpm) else p
  }

  /** Bin `i` is among the first `m`, exists in `power`, and its BPM lies in the band. */
  predicate Eligible(power: seq<real>, duration: real, m: nat, i: int)
    requires duration > 0.0
  {
    0 <= i < m && i < |power| && InBand(BinBpm(i, duration))
  }

  /** Bin `k` is the winner among the first `m` bins: eligible with positive
      power, no eligible bin stronger, every earlier eligible bin weaker. */
  ghost predicate IsDominant(power: seq<real>, duration: real, m: nat, k: int)
    requires duration > 0.0
  {
    && Eligible(power, duration, m, k)
    && power[k] > 0.0
    && (forall j :: Eligible(power, duration, m, j) ==> power[j] <= power[k])
    && (forall j :: Eligible(power, duration, m, j) && j < k ==> power[j] < power[k])
  }

  /** No eligible bin carries positive power. */
  ghost predicate NoPositiveBin(power: seq<real>, duration: real, m: nat)
    requires duration > 0.0
  {
    forall j :: Eligible(power, duration, m, j) ==> power[j] <= 0.0
  }

  /** `p` is what an arg-max over the first `m` bins ends with: the zero peak
      exactly when no eligible bin has positive power, and otherwise the power
      and BPM of the dominant bin. */
  ghost predicate ArgMaxPeak(power: seq<real>, duration: real, m: nat, p: Peak)
    requires duration > 0.0
  {
    && (p == Peak(0.0, 0.0) <==> NoPositiveBin(power, duration, m))
    && (p != Peak(0.0, 0.0) ==>
          exists k :: IsDominant(power, duration, m, k) && p == Peak(power[k], BinBpm(k, duration)))
  }

  /** A bin that beats the peak so far becomes the dominant one. */
  lemma ScanStepTakes(power: seq<real>, duration: real, m: nat, p: Peak)
    requires duration > 0.0 && m > 0
    requires ArgMaxPeak(power, duration, m - 1, p)
    requires InBand(BinBpm(m - 1, duration)) && Beats(power, m - 1, p.maxPower)
    ensures ArgMaxPeak(power, duration, m, Peak(power[m - 1], BinBpm(m - 1, duration)))
  {
    var i := m - 1;
    if p != Peak(0.0, 0.0) {
      var k :| IsDominant(power, duration, m - 1, k) && p == Peak(power[k], BinBpm(k, duration));
    }
    assert power[i] > 0.0;
    assert IsDominant(power, duration, m, i) by {
      forall j | Eligible(power, duration, m, j)
        ensures power[j] <= power[i]
      {
        if j < i {
          assert Eligible(power, duration, m - 1, j);
        }
      }
    }
    assert !NoPositiveBin(power, duration, m) by {
      assert Eligible(power, duration, m, i);
    }
  }

  /** A bin that does not beat the peak so far leaves it, and it stays the arg-max. */
  lemma ScanStepSkips(power: seq<real>, duration: real, m: nat, p: Peak)
    requires duration > 0.0 && m > 0
    requires ArgMaxPeak(power, duration, m - 1, p)
    requires !(InBand(BinBpm(m - 1, duration)) && Beats(power, m - 1, p.maxPower))
    ensures ArgMaxPeak(power, duration, m, p)
  {
    var i := m - 1;
    if p == Peak(0.0, 0.0) {
      assert NoPositiveBin(power, duration, m) by {
        forall j | Eligible(power, duration, m, j)
          ensures power[j] <= 0.0
        {
          if j < i {
            assert Eligible(power, duration, m - 1, j);
          }
        }
      }
    } else {
      var k :| IsDominant(power, duration, m - 1, k) && p == Peak(power[k], BinBpm(k, duration));
      assert IsDominant(power, duration, m, k) by {
        forall j | Eligible(power, duration, m, j)
          ensures power[j] <= power[k]
        {
          if j < i {
            assert Eligible(power, duration, m - 1, j);
          }
        }
        forall j | Eligible(power, duration, m, j) && j < k
          ensures power[j] < power[k]
        {
          assert Eligible(power, duration, m - 1, j);
        }
      }
      assert !NoPositiveBin(power, duration, m) by {
        assert Eligible(power, duration, m, k);
      }
    }
  }

  /** The scan is an arg-max: it ends at the first strongest eligible bin, or at
      0 when no eligible bin has positive power. */
  lemma {:induction false} ScanFindsDominant(power: seq<real>, duration: real, m: nat)
    requires duration > 0.0
    ensures Scan(power, duration, m) == Peak(0.0, 0.0) <==> NoPositiveBin(power, duration, m)
    ensures Scan(power, duration, m) != Peak(0.0, 0.0) ==>
              exists k :: IsDominant(power, duration, m, k)
                          && Scan(power, duration, m) == Peak(power[k], BinBpm(k, duration))
    decreases m
  {
    if m > 0 {
      ScanFindsDominant(power, duration, m - 1);
      var p := Scan(power, duration, m - 1);
      assert ArgMaxPeak(power, duration, m - 1, p);
      if InBand(BinBpm(m - 1, duration)) && Beats(power, m - 1, p.maxPower) {
        ScanStepTakes(power, duration, m, p);
      } else {
        ScanStepSkips(power, duration, m, p);
      }
      assert ArgMaxPeak(power, duration, m, Scan(power, duration, m));
    }
  }

  /** At most one bin is dominant. */
  lemma DominantIsUnique(power: seq<real>, duration: real, m: nat, k1: int, k2: int)
    requires duration > 0.0
    requires IsDominant(power, duration, m, k1) && IsDominant(power, duration, m, k2)
    ensures k1 == k2
  {}

  /** The scan reads only eligible bins: power outside the band, at or above
      half the sample count, does not change its outcome. */
  lemma {:induction false} ScanReadsOnlyEligible(p1: seq<real>, p2: seq<real>, duration: real, m: nat)
    requires duration > 0.0
    requires |p1| == |p2|
    requires forall j :: Eligible(p1, duration, m, j) ==> p1[j] == p2[j]
    ensures Scan(p1, duration, m) == Scan(p2, duration, m)
    decreases m
  {
    if m > 0 {
      assert forall j :: Eligible(p1, duration, m - 1, j) ==> Eligible(p1, duration, m, j);
      ScanReadsOnlyEligible(p1, p2, duration, m - 1);
      if InBand(BinBpm(m - 1, duration)) && m - 1 < |p1| {
        assert Eligible(p1, duration, m, m - 1);
      }
    }
  }

  /** The samples `calcBPM` analyses, with the power of each of their bins. */
  function Spectrum(recent: seq<Sample>, dft: seq<real> -> seq<real>): seq<real>
    requires |recent| > 0
  {
    dft(Detrend(Values(recent)))
  }

  /** The three early exits all pass: 30 samples in all, 30 in the last 8 s, spanning 5 s or more. */
  predicate Measurable(history: seq<Sample>, now: int) {
    var recent := Recent(history, now);
    && |history| >= MinSamples
    && |recent| >= MinSamples
    && SpanSeconds(recent) >= MinDurationSec
  }

  /** `Math.round` maps the band onto the whole numbers 60..100 and 0 to 0. */
  lemma RoundKeepsBand(x: real)
    ensures x == 0.0 ==> JsMath.Round(x) == 0
    ensures InBand(x) ==> MinBpm <= JsMath.Round(x) <= MaxBpm
  {
    if InBand(x) {
      JsMath.RoundMonotone(MinBpm as real, x);
      JsMath.RoundMonotone(x, MaxBpm as real);
      JsMath.RoundOfInteger(MinBpm);
      JsMath.RoundOfInteger(MaxBpm);
    }
  }

  /** `calcBPM()`, with `Date.now()` passed in as `now`. */
  function CalcBpm(history: seq<Sample>, now: int, dft: seq<real> -> seq<real>): (bpm: int)
    ensures bpm == 0 || MinBpm <= bpm <= MaxBpm
    ensures !Measurable(history, now) ==> bpm == 0
  {
    if |history| < MinSamples then 0
    else
      var recent := Recent(history, now);
      if |recent| < MinSamples then 0
      else
        var power := Spectrum(recent, dft);
        var duration := SpanSeconds(recent);
        if duration < MinDurationSec then 0
        else
          var p := Scan(power, duration, NyquistBins(|recent|));
          RoundKeepsBand(p.dominantBpm);
          JsMath.Round(p.dominantBpm)
  }

  /** An estimate exists exactly when the window is measurable and some in-band
      bin below half the sample count has positive power. */
  lemma CalcBpmNonZeroIff(history: seq<Sample>, now: int, dft: seq<real> -> seq<real>)
    ensures CalcBpm(history, now, dft) != 0 <==>
              && Measurable(history, now)
              && var recent := Recent(history, now);
                 !NoPositiveBin(Spectrum(recent, dft), SpanSeconds(recent), NyquistBins(|recent|))
  {
    if Measurable(history, now) {
      var recent := Recent(history, now);
      var power := Spectrum(recent, dft);
      var duration := SpanSeconds(recent);
      var m := NyquistBins(|recent|);
      ScanFindsDominant(power, duration, m);
      var p := Scan(power, duration, m);
      if p != Peak(0.0, 0.0) {
        var k :| IsDominant(power, duration, m, k) && p == Peak(power[k], BinBpm(k, duration));
        RoundKeepsBand(p.dominantBpm);
      }
    }
  }

  /** When bin `k` dominates a measurable window, the estimate is its BPM rounded. */
  lemma CalcBpmPicksDominant(history: seq<Sample>, now: int, dft: seq<real> -> seq<real>, k: int)
    requires Measurable(history, now)
    requires var recent := Recent(history, now);
             IsDominant(Spectrum(recent, dft), SpanSeconds(recent), NyquistBins(|recent|), k)
    ensures var recent := Recent(history, now);
            CalcBpm(history, now, dft) == JsMath.Round(BinBpm(k, SpanSeconds(recent)))
  {
    var recent := Recent(history, now);
    var power := Spectrum(recent, dft);
    var duration := SpanSeconds(recent);
    var m := NyquistBins(|recent|);
    ScanFindsDominant(power, duration, m);
    assert Scan(power, duration, m) != Peak(0.0, 0.0) by {
      assert Eligible(power, duration, m, k);
    }
    var k' :| IsDominant(power, duration, m, k') && Scan(power, duration, m) == Peak(power[k'], BinBpm(k', duration));
    DominantIsUnique(power, duration, m, k, k');
  }

  /** The transform of the all-zero series has no positive bin, as every DFT's does. */
  ghost predicate ZeroInZeroOut(dft: seq<real> -> seq<real>, n: nat) {
    forall i :: 0 <= i < |dft(Zeros(n))| ==> dft(Zeros(n))[i] <= 0.0
  }

  /** A constant signal yields no estimate. */
  lemma FlatSeriesGivesZero(history: seq<Sample>, now: int, dft: seq<real> -> seq<real>)
    requires IsFlat(Values(Recent(history, now)))
    requires ZeroInZeroOut(dft, |Recent(history, now)|)
    ensures CalcBpm(history, now, dft) == 0
  {
    var recent := Recent(history, now);
    if |recent| > 0 {
      FlatDetrendsToZeros(Values(recent));
      CalcBpmNonZeroIff(history, now, dft);
    }
  }

  /** The range filter of the measurement timeout: only 60..100 is kept, anything else becomes 0. */
  function AcceptBpm(newBpm: int): (bpm: int)
    ensures bpm == 0 || MinBpm <= bpm <= MaxBpm
    ensures bpm == newBpm <==> newBpm == 0 || MinBpm <= newBpm <= MaxBpm
    ensures !(MinBpm <= newBpm <= MaxBpm) ==> bpm == 0
  {
    if MinBpm <= newBpm <= MaxBpm then newBpm else 0
  }

  /** The filter never changes what `calcBPM` returns. */
  lemma AcceptBpmKeepsEstimate(history: seq<Sample>, now: int, dft: seq<real> -> seq<real>)
    ensures AcceptBpm(CalcBpm(history, now, dft)) == CalcBpm(history, now, dft)
  {}

  /** What the BPM label shows after a measurement: the number, or `---`. */
  datatype BpmText = Dashes | Number(bpm: int)

  function BpmDisplay(bpm: int): (t: BpmText)
    ensures t == Dashes <==> bpm <= 0
    ensures t.Number? ==> t.bpm == bpm
  {
    if bpm > 0 then Number(bpm) else Dashes
  }
}

=== FILE: exifdate.dfy ===
/** The date strings the shutter writes into EXIF: `DateTime` (and its two
    copies), `YYYY:MM:DD HH:MM:SS` from local time, and `GPSDateStamp`,
    `YYYY:MM:DD` from UTC. The clock reading is a parameter. */
module ExifDate {

  datatype Option<T> = None | Some(value: T)

  /** The calendar fields one `Date` reports; `month0` is `getMonth()`, counted from 0. */
  datatype DateFields = DateFields(year: int, month0: int, day: int, hours: int, minutes: int, seconds: int)

  /** The ranges the `Date` getters stay in. */
  predicate ValidFields(f: DateFields) {
    && 0 <= f.month0 <= 11
    && 1 <= f.day <= 31
    && 0 <= f.hours <= 23
    && 0 <= f.minutes <= 59
    && 0 <= f.seconds <= 59
  }

  predicate IsDigit(c: char) {
    '0' <= c <= '9'
  }

  predicate AllDigits(s: string) {
    forall i :: 0 <= i < |s| ==> IsDigit(s[i])
  }

  function DigitChar(d: int): (c: char)
    requires 0 <= d <= 9
    ensures IsDigit(c)
  {
    ('0' as int + d) as char
  }

  function DigitValue(c: char): (d: int)
    requires IsDigit(c)
    ensures 0 <= d <= 9
    ensures DigitChar(d) == c
  {
    c as int - '0' as int
  }

  /** `n.toString()` for a date field: its decimal digits, without leading zeros.
      JavaScript switches to exponent form only from 10^21, far above any date field. */
  function NatToString(n: nat): (s: string)
    ensures |s| >= 1 && AllDigits(s)
    ensures |s| > 1 ==> s[0] != '0'
    decreases n
  {
    if n < 10 then [DigitChar(n)] else NatToString(n / 10) + [DigitChar(n % 10)]
  }

  /** `n.toString()` for any integer, a minus sign before a negative one. */
  function IntToString(n: int): string {
    if n < 0 then "-" + NatToString(-n) else NatToString(n)
  }

  /** The number a string of decimal digits denotes. */
  function ParseDigits(s: string): nat
    requires AllDigits(s)
    decreases |s|
  {
    if |s| == 0 then 0 else ParseDigits(s[..|s| - 1]) * 10 + DigitValue(s[|s| - 1])
  }

  /** Reading the digits back gives the number. */
  lemma {:induction false} ParseNatToString(n: nat)
    ensures ParseDigits(NatToString(n)) == n
    decreases n
  {
    if n >= 10 {
      var s := NatToString(n);
      ParseNatToString(n / 10);
      assert s[..|s| - 1] == NatToString(n / 10);
      assert DigitValue(DigitChar(n % 10)) == n % 10;
    }
  }

  function Pow10(k: nat): (p: nat)
    ensures p >= 1
  {
    if k == 0 then 1 else 10 * Pow10(k - 1)
  }

  lemma Pow10Small()
    ensures Pow10(1) == 10 && Pow10(2) == 100 && Pow10(3) == 1000 && Pow10(4) == 10000
  {
    assert Pow10(1) == 10;
    assert Pow10(2) == 100;
    assert Pow10(3) == 1000;
  }

  /** A number with k digits is written with k characters. */
  lemma {:induction false} NatToStringLength(n: nat, k: nat)
    requires k >= 1 && (k == 1 || Pow10(k - 1) <= n) && n < Pow10(k)
    ensures |NatToString(n)| == k
    decreases k
  {
    if k > 1 {
      NatToStringLength(n / 10, k - 1);
    }
  }

  /** `s.padStart(2, '0')`: zeros in front up to two characters; a longer string is left alone. */
  function PadStart2(s: string): (r: string)
    ensures |r| == if |s| < 2 then 2 else |s|
    ensures r[|r| - |s|..] == s
    ensures forall i :: 0 <= i < |r| - |s| ==> r[i] == '0'
  {
    if |s| < 2 then seq(2 - |s|, _ => '0') + s else s
  }

  /** `n.toString().padStart(2, '0')`. */
  function TwoDigits(n: nat): string {
    PadStart2(NatToString(n))
  }

  /** Every field below 100 becomes exactly two digits that read back as it. */
  lemma TwoDigitsRoundTrip(n: nat)
    requires n < 100
    ensures |TwoDigits(n)| == 2 && AllDigits(TwoDigits(n))
    ensures ParseDigits(TwoDigits(n)) == n
  {
    var s := NatToString(n);
    ParseNatToString(n);
    Pow10Small();
    if n < 10 {
      NatToStringLength(n, 1);
      var r := TwoDigits(n);
      assert r == ['0', s[0]];
      assert r[..1] == ['0'];
      assert ParseDigits(['0']) == 0 by {
        assert ['0'][..0] == [];
      }
      assert s[..0] == [];
    } else {
      NatToStringLength(n, 2);
    }
  }

  lemma FourDigitYear(year: int)
    ensures 1000 <= year <= 9999 ==> |IntToString(year)| == 4
  {
    if 1000 <= year <= 9999 {
      Pow10Small();
      NatToStringLength(year, 4);
    }
  }

  /** `${year}:${MM}:${DD}`, the month counted from 1. */
  function DateStamp(year: int, month0: int, day: int): (s: string)
    requires 0 <= month0 <= 11 && 1 <= day <= 31
    ensures 1000 <= year <= 9999 ==> |s| == 10 && s[4] == ':' && s[7] == ':'
  {
    var y := IntToString(year);
    var mm := TwoDigits(month0 + 1);
    var dd := TwoDigits(day);
    FourDigitYear(year);
    TwoDigitsRoundTrip(month0 + 1);
    TwoDigitsRoundTrip(day);
    StampParts(y, mm, dd);
    y + ":" + mm + ":" + dd
  }

  /** `dateStr`, used for `DateTime`, `DateTimeOriginal` and `DateTimeDigitized`. */
  function ExifDateTime(local: DateFields): string
    requires ValidFields(local)
  {
    var date := DateStamp(local.year, local.month0, local.day);
    date + " " + (TwoDigits(local.hours) + ":" + TwoDigits(local.minutes) + ":" + TwoDigits(local.seconds))
  }

  /** With a four-digit year the EXIF date string is 19 characters long, with
      the date, a space and the colon-separated time in their fixed positions. */
  lemma ExifDateTimeLayout(local: DateFields)
    requires ValidFields(local) && 1000 <= local.year <= 9999
    ensures var s := ExifDateTime(local);
            && |s| == 19
            && s[4] == ':' && s[7] == ':' && s[10] == ' ' && s[13] == ':' && s[16] == ':'
  {
    var date := DateStamp(local.year, local.month0, local.day);
    var hh := TwoDigits(local.hours);
    var mi := TwoDigits(local.minutes);
    var ss := TwoDigits(local.seconds);
    TwoDigitsRoundTrip(local.hours);
    TwoDigitsRoundTrip(local.minutes);
    TwoDigitsRoundTrip(local.seconds);
    DateTimeParts(date, hh, mi, ss);
    assert ExifDateTime(local) == date + " " + (hh + ":" + mi + ":" + ss);
  }

  /** `GPSDateStamp`, from the UTC fields of the same instant. */
  function GpsDateStamp(utc: DateFields): (s: string)
    requires ValidFields(utc)
    ensures 1000 <= utc.year <= 9999 ==> |s| == 10 && s[4] == ':' && s[7] == ':'
  {
    DateStamp(utc.year, utc.month0, utc.day)
  }

  /** A two-digit field at `s[i..i+2]`. */
  function Field(s: string, i: nat): Option<nat>
    requires i + 2 <= |s|
  {
    if AllDigits(s[i..i + 2]) then Some(ParseDigits(s[i..i + 2])) else None
  }

  /** Reads `YYYY:MM:DD` back into year, 0-based month and day. */
  function ParseDateStamp(s: string): Option<(int, int, int)> {
    if |s| != 10 || s[4] != ':' || s[7] != ':' || !AllDigits(s[..4]) then None
    else
      var month := Field(s, 5);
      var day := Field(s, 8);
      if month.None? || day.None? then None
      else Some((ParseDigits(s[..4]), month.value - 1, day.value))
  }

  /** Reads `YYYY:MM:DD HH:MM:SS` back into calendar fields. */
  function ParseExifDateTime(s: string): Option<DateFields> {
    if |s| != 19 || s[10] != ' ' || s[13] != ':' || s[16] != ':' then None
    else
      var date := ParseDateStamp(s[..10]);
      var h := Field(s, 11);
      var mi := Field(s, 14);
      var sec := Field(s, 17);
      if date.None? || h.None? || mi.None? || sec.None? then None
      else
        var (y, m0, d) := date.value;
        Some(DateFields(y, m0, d, h.value, mi.value, sec.value))
  }

  /** Where the parts of `YYYY:MM:DD` sit. */
  lemma StampParts(y: string, mm: string, dd: string)
    requires |mm| == 2 && |dd| == 2
    ensures var s := y + ":" + mm + ":" + dd;
            |y| == 4 ==> |s| == 10 && s[..4] == y && s[4] == ':' && s[5..7] == mm && s[7] == ':' && s[8..10] == dd
  {}

  /** Where the parts of `YYYY:MM:DD HH:MM:SS` sit. */
  lemma DateTimeParts(date: string, hh: string, mi: string, ss: string)
    requires |hh| == 2 && |mi| == 2 && |ss| == 2
    ensures var s := date + " " + (hh + ":" + mi + ":" + ss);
            |date| == 10 ==>
            && |s| == 19 && s[..10] == date && s[10] == ' ' && s[11..13] == hh
            && s[13] == ':' && s[14..16] == mi && s[16] == ':' && s[17..19] == ss
  {}

  /** Two digit characters at `s[i..i+2]` read back as the number they spell. */
  lemma FieldOf(s: string, i: nat, part: string)
    requires i + 2 <= |s| && s[i..i + 2] == part && AllDigits(part)
    ensures Field(s, i) == Some(ParseDigits(part))
  {}

  /** A string laid out as `YYYY:MM:DD` from four digits and two times two
      digits parses back into them, the month one lower. */
  lemma ParseStampOf(s: string, y: string, mm: string, dd: string)
    requires |s| == 10 && s[..4] == y && s[4] == ':' && s[5..7] == mm && s[7] == ':' && s[8..10] == dd
    requires AllDigits(y) && AllDigits(mm) && AllDigits(dd)
    ensures ParseDateStamp(s) == Some((ParseDigits(y), ParseDigits(mm) - 1, ParseDigits(dd)))
  {
    FieldOf(s, 5, mm);
    FieldOf(s, 8, dd);
  }

  /** A parsable date followed by two-digit hours, minutes and seconds laid out
      as `YYYY:MM:DD HH:MM:SS` parse back. */
  lemma ParseDateTimeOf(date: string, hh: string, mi: string, ss: string, y: int, m0: int, d: int)
    requires |date| == 10 && |hh| == 2 && |mi| == 2 && |ss| == 2
    requires AllDigits(hh) && AllDigits(mi) && AllDigits(ss)
    requires ParseDateStamp(date) == Some((y, m0, d))
    ensures ParseExifDateTime(date + " " + (hh + ":" + mi + ":" + ss))
              == Some(DateFields(y, m0, d, ParseDigits(hh), ParseDigits(mi), ParseDigits(ss)))
  {
    var s := date + " " + (hh + ":" + mi + ":" + ss);
    DateTimeParts(date, hh, mi, ss);
    FieldOf(s, 11, hh);
    FieldOf(s, 14, mi);
    FieldOf(s, 17, ss);
  }

  /** A date stamp with a four-digit year reads back as the fields it was built from. */
  lemma DateStampRoundTrip(year: int, month0: int, day: int)
    requires 1000 <= year <= 9999 && 0 <= month0 <= 11 && 1 <= day <= 31
    ensures ParseDateStamp(DateStamp(year, month0, day)) == Some((year, month0, day))
  {
    var y := IntToString(year);
    var mm := TwoDigits(month0 + 1);
    var dd := TwoDigits(day);
    FourDigitYear(year);
    ParseNatToString(year);
    TwoDigitsRoundTrip(month0 + 1);
    TwoDigitsRoundTrip(day);
    var s := DateStamp(year, month0, day);
    assert s == y + ":" + mm + ":" + dd;
    StampParts(y, mm, dd);
    ParseStampOf(s, y, mm, dd);
  }

  /** The EXIF date string with a four-digit year reads back as the clock fields
      it was built from: month and day, hours, minutes and seconds each sit in
      their own two zero-padded digits, and the month is one more than `getMonth()`. */
  lemma ExifDateTimeRoundTrip(local: DateFields)
    requires ValidFields(local) && 1000 <= local.year <= 9999
    ensures ParseExifDateTime(ExifDateTime(local)) == Some(local)
  {
    var date := DateStamp(local.year, local.month0, local.day);
    var hh := TwoDigits(local.hours);
    var mi := TwoDigits(local.minutes);
    var ss := TwoDigits(local.seconds);
    TwoDigitsRoundTrip(local.hours);
    TwoDigitsRoundTrip(local.minutes);
    TwoDigitsRoundTrip(local.seconds);
    DateStampRoundTrip(local.year, local.month0, local.day);
    assert ExifDateTime(local) == date + " " + (hh + ":" + mi + ":" + ss);
    ParseDateTimeOf(date, hh, mi, ss, local.year, local.month0, local.day);
  }

  /** The GPS date stamp reads back as the UTC year, month and day. */
  lemma GpsDateStampRoundTrip(utc: DateFields)
    requires ValidFields(utc) && 1000 <= utc.year <= 9999
    ensures ParseDateStamp(GpsDateStamp(utc)) == Some((utc.year, utc.month0, utc.day))
  {
    DateStampRoundTrip(utc.year, utc.month0, utc.day);
  }
}

=== FILE: jsmath.dfy ===
/** The JavaScript `Math` operations the camera script relies on, over exact reals. */
module JsMath {

  /** `Math.round`: the integer nearest to `x`, a half rounding up towards +infinity. */
  function Round(x: real): (r: int)
    ensures r as real - 0.5 <= x < r as real + 0.5
  {
    (x + 0.5).Floor
  }

  /** `Math.max` on two numbers. */
  function Max(a: real, b: real): (m: real)
    ensures m >= a && m >= b
    ensures m == a || m == b
  {
    if a >= b then a else b
  }

  lemma RoundMonotone(x: real, y: real)
    requires x <= y
    ensures Round(x) <= Round(y)
  {}

  lemma RoundOfInteger(n: int)
    ensures Round(n as real) == n
  {}
}

=== FILE: sampler.dfy ===
/** The measuring branch of the frame loop: one luma sample per frame, taken
    over a square of pixels and kept in a bounded history. */
module Sampler {

  /** One entry of a canvas `ImageData` buffer (a `Uint8ClampedArray`). */
  type Channel = x: int | 0 <= x <= 255

  /** RGBA data holding a whole number of pixels, at least one. `getImageData`
      over the 100x100 sampling square always returns 40000 such entries. */
  predicate IsPixelData(data: seq<Channel>) {
    |data| > 0 && |data| % 4 == 0
  }

  /** Rec. 601 luma of one pixel. */
  function Luma(r: Channel, g: Channel, b: Channel): (y: real)
    ensures 0.0 <= y <= 255.0
    ensures r == g == b ==> y == r as real
  {
    0.299 * r as real + 0.587 * g as real + 0.114 * b as real
  }

  /** Total luma of the pixels in `data`; the alpha entry of each pixel is ignored. */
  function LumaSum(data: seq<Channel>): (s: real)
    requires |data| % 4 == 0
    ensures 0.0 <= s <= 255.0 * |data| as real / 4.0
    decreases |data|
  {
    if |data| == 0 then 0.0
    else
      var k := |data| - 4;
      LumaSum(data[..k]) + Luma(data[k], data[k + 1], data[k + 2])
  }

  /** Mean luma over the pixels of the block. */
  function AverageLuma(data: seq<Channel>): (avg: real)
    requires IsPixelData(data)
    ensures 0.0 <= avg <= 255.0
  {
    var n := (|data| / 4) as real;
    var s := LumaSum(data);
    PixelCount(|data|);
    QuotientBound(s, n, 255.0);
    s / n
  }

  /** The number of pixels in `n` entries, exactly a quarter of them. */
  lemma PixelCount(n: nat)
    requires n % 4 == 0
    ensures (n / 4) as real == n as real / 4.0
  {
    var q := n / 4;
    assert n == 4 * q;
  }

  /** A total of at most `b` per item averages to at most `b`. */
  lemma QuotientBound(s: real, n: real, b: real)
    requires n >= 1.0 && b >= 0.0 && 0.0 <= s <= b * n
    ensures 0.0 <= s / n <= b
  {
    var q := s / n;
    assert q * n == s;
    assert (q - b) * n == s - b * n;
  }

  /** Adding one more pixel adds its luma to the total. */
  lemma LumaSumStep(data: seq<Channel>, i: nat)
    requires i % 4 == 0 && i + 4 <= |data|
    ensures LumaSum(data[..i + 4]) == LumaSum(data[..i]) + Luma(data[i], data[i + 1], data[i + 2])
  {
    var next := data[..i + 4];
    assert next[..i] == data[..i];
    assert next[i] == data[i] && next[i + 1] == data[i + 1] && next[i + 2] == data[i + 2];
  }

  lemma NextPixelAligned(i: int)
    requires i % 4 == 0
    ensures (i + 4) % 4 == 0
  {}

  /** The summing loop of the frame callback, four entries per pixel. */
  method SumLuma(data: seq<Channel>) returns (sum: real)
    requires |data| % 4 == 0
    ensures sum == LumaSum(data)
    ensures 0.0 <= sum <= 255.0 * |data| as real / 4.0
  {
    sum := 0.0;
    var i := 0;
    while i < |data|
      invariant 0 <= i <= |data| && i % 4 == 0
      invariant sum == LumaSum(data[..i])
    {
      LumaSumStep(data, i);
      NextPixelAligned(i);
      sum := sum + Luma(data[i], data[i + 1], data[i + 2]);
      i := i + 4;
    }
    assert data[..i] == data;
  }

  /** `avgLuminance`: the sum divided by the number of pixels. */
  method MeanLuma(data: seq<Channel>) returns (avg: real)
    requires IsPixelData(data)
    ensures avg == AverageLuma(data)
    ensures 0.0 <= avg <= 255.0
  {
    var sum := SumLuma(data);
    avg := sum / (|data| / 4) as real;
  }

  /** Every pixel of `data` is the grey `c` (red, green and blue all equal `c`). */
  predicate IsGrey(data: seq<Channel>, c: Channel) {
    forall i :: 0 <= i < |data| && i % 4 != 3 ==> data[i] == c
  }

  /** `x` added up `m` times. */
  function Repeat(x: real, m: nat): real
    decreases m
  {
    if m == 0 then 0.0 else Repeat(x, m - 1) + x
  }

  /** A prefix of a grey block is grey. */
  lemma GreyPrefix(data: seq<Channel>, c: Channel, k: nat)
    requires k <= |data| && IsGrey(data, c)
    ensures IsGrey(data[..k], c)
  {
    var prefix := data[..k];
    forall i | 0 <= i < |prefix| && i % 4 != 3
      ensures prefix[i] == c
    {
      assert prefix[i] == data[i];
    }
  }

  /** Dropping the last pixel of a grey block takes `c` off the total. */
  lemma GreyLastPixel(data: seq<Channel>, c: Channel)
    requires |data| >= 4 && |data| % 4 == 0
    requires data[|data| - 4] == c && data[|data| - 3] == c && data[|data| - 2] == c
    ensures LumaSum(data) == LumaSum(data[..|data| - 4]) + c as real
  {}

  lemma QuarterStep(n: nat)
    requires n >= 4
    ensures n / 4 == (n - 4) / 4 + 1
  {}

  lemma {:induction false} GreyLumaSum(data: seq<Channel>, c: Channel)
    requires |data| % 4 == 0 && IsGrey(data, c)
    ensures LumaSum(data) == Repeat(c as real, |data| / 4)
    decreases |data|
  {
    if |data| > 0 {
      var k := |data| - 4;
      GreyPrefix(data, c, k);
      assert data[k] == c && data[k + 1] == c && data[k + 2] == c;
      GreyLastPixel(data, c);
      QuarterStep(|data|);
      GreyLumaSum(data[..|data| - 4], c);
    }
  }

  lemma {:induction false} RepeatAverage(x: real, m: nat)
    requires m > 0
    ensures Repeat(x, m) / m as real == x
  {
    RepeatIsProduct(x, m);
  }

  lemma {:induction false} RepeatIsProduct(x: real, m: nat)
    ensures Repeat(x, m) == x * m as real
    decreases m
  {
    if m > 0 {
      RepeatIsProduct(x, m - 1);
      assert x * m as real == x * (m - 1) as real + x;
    }
  }

  /** The luma weights sum to one: a uniformly grey block averages to its grey level. */
  lemma GreyBlockAverage(data: seq<Channel>, c: Channel)
    requires IsPixelData(data) && IsGrey(data, c)
    ensures AverageLuma(data) == c as real
  {
    GreyLumaSum(data, c);
    RepeatAverage(c as real, |data| / 4);
  }

  /** One entry of `history`: a luma value and the wall-clock time it was taken, in ms. */
  datatype Sample = Sample(v: real, t: int)

  const Capacity: nat := 512

  /** `history.push(s)`, then `history.shift()` when the history has grown past 512. */
  function Append(history: seq<Sample>, s: Sample): (h: seq<Sample>)
    ensures |h| > 0 && h[|h| - 1] == s
    ensures |history| < Capacity ==> |h| == |history| + 1
    ensures |history| >= Capacity ==> |h| == |history|
  {
    var pushed := history + [s];
    if |pushed| > Capacity then pushed[1..] else pushed
  }

  /** Below capacity nothing is evicted; at capacity exactly the oldest sample
      is, and the others keep their order ahead of the new one. */
  lemma AppendEvictsOldest(history: seq<Sample>, s: Sample)
    ensures |history| < Capacity ==> Append(history, s) == history + [s]
    ensures |history| == Capacity ==> Append(history, s) == history[1..] + [s]
  {
    if |history| == Capacity {
      assert (history + [s])[1..] == history[1..] + [s];
    }
  }

  /** The history after appending `samples`, in order, to an emptied history. */
  function Record(samples: seq<Sample>): (h: seq<Sample>)
    ensures |h| <= Capacity
    decreases |samples|
  {
    if |samples| == 0 then []
    else Append(Record(samples[..|samples| - 1]), samples[|samples| - 1])
  }

  /** The history is a window: it holds the newest min(n, 512) of the n samples
      appended since it was emptied, oldest first. */
  lemma {:induction false} RecordKeepsNewest(samples: seq<Sample>)
    ensures |samples| <= Capacity ==> Record(samples) == samples
    ensures |samples| > Capacity ==> Record(samples) == samples[|samples| - Capacity..]
    decreases |samples|
  {
    if |samples| > 0 {
      var n := |samples|;
      var prefix := samples[..n - 1];
      var x := samples[n - 1];
      RecordKeepsNewest(prefix);
      var kept := Record(prefix);
      AppendEvictsOldest(kept, x);
      if n <= Capacity {
        assert kept == prefix;
        assert samples == prefix + [x];
      } else {
        assert |kept| == Capacity;
        assert kept[1..] + [x] == samples[n - Capacity..];
      }
    }
  }
}

=== FILE: session.dfy ===
/** The script's shared state and the handlers that change it: the start button
    and its 8-second timeout, the frame loop, the pinch-driven F-number, the
    camera switch, and the settings a shot is taken with. */
module Session {
  import Aperture
  import Sampler
  import Estimator

  type Sample = Sampler.Sample

  /** `currentFacingMode`: `'environment'` (rear camera) or `'user'` (front camera). */
  datatype FacingMode = Environment | User

  /** The switch-camera button. */
  function Toggle(m: FacingMode): (r: FacingMode)
    ensures r != m
  {
    if m == Environment then User else Environment
  }

  /** Switching twice returns to the first camera. */
  lemma ToggleInvolutive(m: FacingMode)
    ensures Toggle(Toggle(m)) == m
  {}

  /** The CSS transform the `play` listener gives the preview. */
  function PreviewTransform(m: FacingMode): string {
    if m == User then "scaleX(-1)" else "none"
  }

  /** The shutter flips the capture canvas horizontally for this camera. */
  predicate CaptureFlips(m: FacingMode) {
    m == User
  }

  /** Preview and capture mirror for the same camera, so a shot looks like its preview. */
  lemma MirroringAgrees(m: FacingMode)
    ensures PreviewTransform(m) == "scaleX(-1)" <==> CaptureFlips(m)
  {}

  /** What the BPM label says. Its text before the first measurement comes from
      the page, not from the script. */
  datatype BpmLabel = PageDefault | MeasuringNow | Result(text: Estimator.BpmText)

  /** `previewMirrored` is whether `video.style.transform` is `scaleX(-1)`; only
      the `play` listener writes it, from the facing mode of that moment. */
  datatype AppState = AppState(
    measuring: bool,
    bpm: int,
    history: seq<Sample>,
    scale: real,
    fValue: int,
    facing: FacingMode,
    previewMirrored: bool,
    shown: BpmLabel)

  /** The state the script starts in. */
  function Init(): AppState {
    AppState(false, 0, [], Aperture.MinScale, Aperture.MaxF, Environment, false, PageDefault)
  }

  /** What every handler keeps true: the history is bounded, the accepted BPM is
      0 or inside the band, and the F-number is the one the current scale maps to. */
  predicate Valid(s: AppState) {
    && |s.history| <= Sampler.Capacity
    && (s.bpm == 0 || Estimator.MinBpm <= s.bpm <= Estimator.MaxBpm)
    && s.fValue == Aperture.ScaleToFNumber(s.scale)
  }

  lemma InitValid()
    ensures Valid(Init())
  {
    Aperture.ScaleToFNumberEndpoints();
  }

  /** The start button: ignored while measuring; otherwise starts measuring on an
      emptied history. */
  function PressStart(s: AppState): (r: AppState)
    ensures Valid(s) ==> Valid(r)
    ensures r.measuring
    ensures s.measuring ==> r == s
    ensures !s.measuring ==> r.history == [] && r.shown == MeasuringNow
    ensures r.(measuring := s.measuring, history := s.history, shown := s.shown) == s
  {
    if s.measuring then s
    else s.(measuring := true, history := [], shown := MeasuringNow)
  }

  /** Pressing start again during a measurement changes nothing. */
  lemma PressStartIdempotent(s: AppState)
    ensures PressStart(PressStart(s)) == PressStart(s)
  {}

  /** One call of `loop`: when the video has data (`readyState >= 2`) and a
      measurement runs, the block's mean luma is appended with the time `now`. */
  function FrameTick(s: AppState, videoReady: bool, data: seq<Sampler.Channel>, now: int): (r: AppState)
    requires videoReady && s.measuring ==> Sampler.IsPixelData(data)
    ensures Valid(s) ==> Valid(r)
    ensures !(videoReady && s.measuring) ==> r == s
    ensures videoReady && s.measuring ==>
              && |r.history| > 0
              && r.history[|r.history| - 1].t == now
              && 0.0 <= r.history[|r.history| - 1].v <= 255.0
    ensures r.(history := s.history) == s
  {
    if videoReady && s.measuring then
      s.(history := Sampler.Append(s.history, Sampler.Sample(Sampler.AverageLuma(data), now)))
    else s
  }

  /** A camera frame reaching the loop: its sampling block and the clock reading. */
  datatype Frame = Frame(data: seq<Sampler.Channel>, now: int)

  predicate AllDecodable(frames: seq<Frame>) {
    forall i :: 0 <= i < |frames| ==> Sampler.IsPixelData(frames[i].data)
  }

  /** The samples the frames yield, one per frame. */
  function SamplesOf(frames: seq<Frame>): (samples: seq<Sample>)
    requires AllDecodable(frames)
    ensures |samples| == |frames|
  {
    seq(|frames|, i requires 0 <= i < |frames| && AllDecodable(frames) =>
                    Sampler.Sample(Sampler.AverageLuma(frames[i].data), frames[i].now))
  }

  /** The loop running over `frames` while the video is ready. */
  function RunFrames(s: AppState, frames: seq<Frame>): (r: AppState)
    requires AllDecodable(frames)
    ensures r.measuring == s.measuring
    decreases |frames|
  {
    if |frames| == 0 then s
    else
      var n := |frames| - 1;
      assert AllDecodable(frames[..n]);
      FrameTick(RunFrames(s, frames[..n]), true, frames[n].data, frames[n].now)
  }

  lemma SamplesOfPrefix(frames: seq<Frame>, n: nat)
    requires AllDecodable(frames) && n <= |frames|
    ensures AllDecodable(frames[..n])
    ensures SamplesOf(frames)[..n] == SamplesOf(frames[..n])
  {}

  /** During a measurement started on an empty history, the history is exactly
      what appending the frames' samples one by one gives. */
  lemma {:induction false} RunFramesRecords(s: AppState, frames: seq<Frame>)
    requires AllDecodable(frames)
    requires s.measuring && s.history == []
    ensures RunFrames(s, frames).history == Sampler.Record(SamplesOf(frames))
    decreases |frames|
  {
    if |frames| > 0 {
      var n := |frames| - 1;
      assert AllDecodable(frames[..n]);
      RunFramesRecords(s, frames[..n]);
      var samples := SamplesOf(frames);
      assert RunFrames(s, frames).history == Sampler.Append(RunFrames(s, frames[..n]).history, samples[n]);
      assert samples[..n] == SamplesOf(frames[..n]) by {
        SamplesOfPrefix(frames, n);
      }
    }
  }

  /** After start, the history is the newest 512 (or fewer) samples of the frames
      seen since, oldest first. */
  lemma MeasurementKeepsNewest(s: AppState, frames: seq<Frame>)
    requires AllDecodable(frames)
    requires !s.measuring
    ensures |frames| <= Sampler.Capacity ==> RunFrames(PressStart(s), frames).history == SamplesOf(frames)
    ensures |frames| > Sampler.Capacity ==>
              RunFrames(PressStart(s), frames).history == SamplesOf(frames)[|frames| - Sampler.Capacity..]
  {
    var started := PressStart(s);
    assert started.measuring && started.history == [];
    RunFramesRecords(started, frames);
    Sampler.RecordKeepsNewest(SamplesOf(frames));
  }

  /** The 8-second timeout: stop measuring, estimate, keep the estimate only
      inside 60..100, and show it or `---`. */
  function MeasurementEnds(s: AppState, now: int, dft: seq<real> -> seq<real>): (r: AppState)
    ensures Valid(s) ==> Valid(r)
    ensures !r.measuring
    ensures r.bpm == Estimator.CalcBpm(s.history, now, dft)
    ensures r.shown == Result(Estimator.Dashes) <==> r.bpm == 0
    ensures r.shown != Result(Estimator.Dashes) ==> r.shown == Result(Estimator.Number(r.bpm))
    ensures r.(measuring := s.measuring, bpm := s.bpm, shown := s.shown) == s
  {
    var newBpm := Estimator.CalcBpm(s.history, now, dft);
    var bpm := Estimator.AcceptBpm(newBpm);
    s.(measuring := false, bpm := bpm, shown := Result(Estimator.BpmDisplay(bpm)))
  }

  /** `updateCircleAndFValue` after the pinch handler set a new scale. */
  function UpdateAperture(s: AppState, scale: real): (r: AppState)
    ensures Valid(s) ==> Valid(r)
    ensures Aperture.MinF <= r.fValue <= Aperture.MaxF
    ensures r.scale == scale && r.fValue == Aperture.ScaleToFNumber(scale)
    ensures r.(scale := s.scale, fValue := s.fValue) == s
  {
    s.(scale := scale, fValue := Aperture.ScaleToFNumber(scale))
  }

  /** The preview shows what the shutter captures: it is mirrored exactly when
      the current facing mode is the front camera. */
  predicate PreviewInSync(s: AppState) {
    s.previewMirrored == CaptureFlips(s.facing)
  }

  /** The `play` listener, run when a camera has started: it mirrors the
      preview for the front camera and not otherwise. */
  function CameraStarted(s: AppState): (r: AppState)
    ensures Valid(s) ==> Valid(r)
    ensures PreviewInSync(r)
    ensures r.(previewMirrored := s.previewMirrored) == s
  {
    s.(previewMirrored := PreviewTransform(s.facing) == "scaleX(-1)")
  }

  /** The switch-camera button. The mode flips before the camera restarts and
      stays flipped if the restart fails; only a successful restart plays the
      video and so updates the preview. */
  function SwitchCamera(s: AppState, restartOk: bool): (r: AppState)
    ensures Valid(s) ==> Valid(r)
    ensures CaptureFlips(r.facing) != CaptureFlips(s.facing)
    ensures restartOk ==> PreviewInSync(r)
    ensures !restartOk ==> r.previewMirrored == s.previewMirrored
    ensures PreviewInSync(r) <==> restartOk || !PreviewInSync(s)
    ensures r.(facing := s.facing, previewMirrored := s.previewMirrored) == s
  {
    var toggled := s.(facing := Toggle(s.facing));
    if restartOk then CameraStarted(toggled) else toggled
  }

  /** A failed restart leaves a preview that was in sync out of sync: the
      capture is flipped for the new mode while the preview still shows the old one. */
  lemma FailedSwitchDiverges(s: AppState)
    requires PreviewInSync(s)
    ensures !PreviewInSync(SwitchCamera(s, false))
    ensures Shot(SwitchCamera(s, false)).flipped != SwitchCamera(s, false).previewMirrored
  {}

  /** The switch as its write-back after a successful start suggests: the mode
      changes only when the new camera has started. */
  function SwitchCameraIntended(s: AppState, restartOk: bool): (r: AppState)
    ensures Valid(s) ==> Valid(r)
    ensures restartOk ==> CaptureFlips(r.facing) != CaptureFlips(s.facing)
    ensures restartOk ==> PreviewInSync(r)
    ensures !restartOk ==> r == s
    ensures r.(facing := s.facing, previewMirrored := s.previewMirrored) == s
  {
    if restartOk then CameraStarted(s.(facing := Toggle(s.facing))) else s
  }

  /** Every handler of the intended switch keeps the preview in sync, whether
      or not the restart succeeds. */
  lemma IntendedSwitchKeepsSync(s: AppState, restartOk: bool)
    requires PreviewInSync(s)
    ensures PreviewInSync(SwitchCameraIntended(s, restartOk))
  {}

  /** The other handlers never touch the facing mode or the preview transform,
      so they keep the preview in sync. */
  lemma HandlersKeepPreviewInSync(s: AppState, scale: real, videoReady: bool, data: seq<Sampler.Channel>,
                                  now: int, dft: seq<real> -> seq<real>)
    requires PreviewInSync(s)
    ensures PreviewInSync(PressStart(s))
    ensures PreviewInSync(UpdateAperture(s, scale))
    ensures PreviewInSync(MeasurementEnds(s, now, dft))
    ensures (videoReady && s.measuring ==> Sampler.IsPixelData(data)) ==> PreviewInSync(FrameTick(s, videoReady, data, now))
  {}

  /** The script's first state has the rear camera and an unmirrored preview. */
  lemma InitInSync()
    ensures PreviewInSync(Init())
  {}

  /** How the live preview is styled. */
  datatype PreviewStyle = PreviewStyle(transform: string, filter: Aperture.FilterParams)

  function Preview(s: AppState): PreviewStyle {
    PreviewStyle(if s.previewMirrored then "scaleX(-1)" else "none", Aperture.ComputeFilter(s.fValue as real))
  }

  /** What the shutter draws with: the horizontal flip, the aperture filter, and
      the BPM handed to the motion-blur capture. */
  datatype ShotSettings = ShotSettings(flipped: bool, filter: Aperture.FilterParams, bpm: int)

  function Shot(s: AppState): (shot: ShotSettings)
    ensures Valid(s) ==> 0.0 <= shot.filter.blurPx <= Aperture.MaxBlurPx
    ensures Valid(s) ==> Aperture.BaseBrightness <= shot.filter.brightness <= Aperture.BaseBrightness + Aperture.BrightnessGain
    ensures Valid(s) ==> shot.bpm == 0 || Estimator.MinBpm <= shot.bpm <= Estimator.MaxBpm
    ensures shot.bpm == s.bpm
    ensures shot.filter == Aperture.ComputeFilter(s.fValue as real)
  {
    ShotSettings(CaptureFlips(s.facing), Aperture.ComputeFilter(s.fValue as real), s.bpm)
  }

  /** The BPM a shot blurs with is the last measurement's estimate: the timeout
      stores what `calcBPM` returns, and switching the camera, pinching and
      starting a new measurement keep it. */
  lemma ShotCarriesEstimate(s: AppState, now: int, dft: seq<real> -> seq<real>, scale: real, restartOk: bool)
    ensures Shot(MeasurementEnds(s, now, dft)).bpm == Estimator.CalcBpm(s.history, now, dft)
    ensures Shot(SwitchCamera(s, restartOk)).bpm == Shot(s).bpm
    ensures Shot(UpdateAperture(s, scale)).bpm == Shot(s).bpm
    ensures Shot(PressStart(s)).bpm == Shot(s).bpm
  {}

  /** The shot gets the preview's filter, and it is mirrored the way the preview
      is exactly when the preview is in sync with the facing mode. */
  lemma ShotMatchesPreview(s: AppState)
    ensures (Shot(s).flipped <==> Preview(s).transform == "scaleX(-1)") <==> PreviewInSync(s)
    ensures Shot(s).filter == Preview(s).filter
  {}
}
